=== FILE: README.md ===
# URL shortener request logic in Dafny

This project models the request-decision logic of a small URL-shortening
service. A client POSTs a long URL together with a shared secret. The service
draws an eight-symbol code, saves the mapping `{shortCode, originalUrl,
createdAt}`, and answers with `protocol://host/<redirect prefix>/<code>`. A GET
on that path looks the code up and redirects to the stored URL. Any query
segment of the request is carried over onto the stored URL.

The store is a `map<string, Mapping>` keyed by short code, together with a flag
saying whether the database can be reached. Each handler is a pure function.
It takes the configuration, the request, the generated code (and the clock
reading for `createdAt`) and the database. It returns the response and the
database afterwards.

Modules, one per concern:

- `Wrappers` (wrappers.dfy): `Option` and `Result`.
- `JsValues` (js_values.dfy): the values a parsed body field can hold, JavaScript truthiness, strict string equality, and `String(x)` for scalars.
- `Strings` (strings.dfy): `String.prototype.split` with a one-character separator, its inverse `Join`, and the last path segment.
- `IdGenerator` (id_generator.dfy): the alphabet, the code length, `ValidCode`, and `generateSafeId` / `generateOrderId` as functions of the random draw.
- `UrlSchema` (url_schema.dfy): the persisted `Mapping`, the store, and `save` / `findOne` with the schema's required, unique and default rules.
- `Handlers` (handlers.dfy): the JSON shorten endpoint, the form shorten endpoint and the redirect endpoint.
- `Sessions` (sessions.dfy): requests served one after another; mappings are only added, and successful shortens never share a code.

Behaviour of the code that is easy to misread:

- The URL check is JavaScript falsiness, not just absent-or-empty. `null`, `false` and `0` are also refused with 400.
- Only the text between the first and the second `?` of `req.url` is appended (`req.url.split("?")[1]`), not the whole query string. An empty segment (`/redirect/x?`) appends nothing.
- The form endpoint reads the field `longUrl`. The API endpoint reads `longURL`. With the default `SHORTEN_URL` both are registered on `POST /shorten`, so Express only ever reaches the API handler. Both handlers are modelled as separate functions.
- The comment in `utils/idGenerator.js` says "uppercase", but the alphabet holds digits and lower-case letters only (`IdGenerator.AlphabetFacts`).

## Model

| member | source | states |
|---|---|---|
| IdGenerator.AlphabetFacts | utils/idGenerator.js:4-8 | the alphabet has 36 pairwise distinct symbols; a character is in it exactly when it is a digit or a lower-case letter; it holds no upper-case letter |
| IdGenerator.ValidCodeUrlSafe | utils/idGenerator.js:5-8 | a valid code contains no `/`, `?`, `&`, `#` or `%`, so it is safe as a URL path segment |
| IdGenerator.GenerateSafeId | utils/idGenerator.js:7-10 | every generated code has length 8 and only alphabet symbols |
| IdGenerator.GenerateSafeIdBijective | utils/idGenerator.js:7-10 | every valid code is spelled by exactly one draw of eight alphabet positions, and distinct draws give distinct codes |
| IdGenerator.GenerateOrderId | utils/idGenerator.js:14 | `generateOrderId` yields the same code as `generateSafeId` for the same draw, so it satisfies `ValidCode` too |
| JsValues.FalsyValues | index.js:86 | `!v` holds exactly for `undefined`, `null`, `false`, `0` and the empty string |
| JsValues.NumberString | schema/urlSchema.js:10-11 | a safe integer is stored as its decimal digits without leading zeros, with a leading `-` when negative, and the digits read back as the number, so the string is exactly JavaScript's `String(n)` |
| JsValues.ScalarString | schema/urlSchema.js:10-11 | a string path accepts strings, numbers and booleans and nothing else; a string is kept as it is, and a number becomes its canonical decimal form (no leading zeros, `-` when negative), which reads back as its value |
| JsValues.TruthyScalarNonEmpty | index.js:86-88 | a URL field that passes the falsiness check never converts to the empty string |
| UrlSchema.RequiredString | schema/urlSchema.js:5-13 | a required string path is accepted exactly when its value converts to a non-empty string; arrays and objects give a cast error, and every other refusal (`undefined`, `null`, a value converting to `""`) is a required error on that path |
| UrlSchema.Insert | schema/urlSchema.js:4-18 | save succeeds exactly when both required paths validate, the database is reachable and the code is not stored yet; validation errors come first, then unreachability, then the duplicate key; on success exactly one mapping is added, with `createdAt` defaulted to the clock, and every other mapping is unchanged |
| UrlSchema.InsertWellFormed | schema/urlSchema.js:5-13 | saving keeps every stored document under its own code with a non-empty code and URL |
| UrlSchema.FindOne | index.js:127 | a lookup fails when the database is unreachable, and otherwise finds a document exactly when the code is stored |
| UrlSchema.FindOneUnique | schema/urlSchema.js:5-9 | in a well-formed store no two documents share a code; a lookup returns the one document with that code, and finds nothing exactly when no document has it |
| Strings.Split | index.js:134 | `split` at one character always yields at least one piece, and no piece contains the separator |
| Strings.JoinSplit | index.js:134 | splitting a string at a character loses nothing: joining the pieces back restores it |
| Strings.SplitJoin | index.js:134 | splitting undoes joining when no piece contains the separator |
| Strings.LastSegmentAfterSlash | index.js:104-106 | the last `/`-segment of `a + "/" + b` is `b` when `b` has no `/` |
| Handlers.AuthorizedExactly | index.js:81 | the password check passes exactly when the body's `password` is the secret as a string; a missing password or a non-string never passes |
| Handlers.ShortUrlShape | index.js:104-106 | the short URL is the request origin followed by `/prefix/code`, and its last path segment is exactly the stored code |
| Handlers.ShortenApi | index.js:75-118 | 401 exactly when the password is not the secret, whatever the URL field holds; otherwise 400 exactly when `longURL` is falsy; otherwise 200 exactly when the save succeeds, else 500 with one attempt only; any non-200 leaves the database unchanged; 200 returns the drawn code and `protocol://host/prefix/code` and adds exactly the mapping code to URL; the 401, 400 and 500 answers carry the JSON `{error}` messages "Unauthorized: Invalid password", "longURL parameter is required" and "Internal server error" |
| Handlers.ShortenForm | index.js:153-194 | the same decisions as the API, in the same order, reading `longUrl` and answering with a link to the short URL; the 401, 400 and 500 answers are the plain texts "Unauthorized: Invalid password", "Original URL is required" and "Error creating short URL" |
| Handlers.Redirect | index.js:121-150 | never changes the database; 500 exactly when the database is unreachable, 404 exactly when the code is unknown, otherwise a redirect that targets the stored URL when the request has no query segment; the 404 and 500 answers carry the JSON `{error}` messages "Shortened URL not found" and "Internal server error" |
| Handlers.QuerySegment | index.js:134 | `req.url.split("?")[1]` is absent exactly when the URL has no `?`; when present it contains no `?` and is shorter than the URL |
| Handlers.AppendQuery | index.js:135-138 | the target always starts with the stored URL; it is the stored URL unchanged exactly when the segment is absent or empty; otherwise the next character is `&` when the stored URL has a `?` and `?` when it has none, and the rest is exactly the segment |
| Handlers.QuerySegmentPresent | index.js:134 | the query segment is the text after the first `?` up to the next `?`; text after a second `?` is dropped |
| Handlers.RedirectWithoutQuery | index.js:127-141 | a stored code requested without `?` redirects to the stored URL unchanged |
| Handlers.RedirectWithQuery | index.js:134-141 | for a request `path?q` (optionally `?rest`) the target is the stored URL plus `&q` when it already has a `?`, plus `?q` otherwise, and unchanged when `q` is empty |
| Handlers.AppendQueryRoundTrip | index.js:137-138 | a segment appended to a stored URL without a query reads back as that URL's query segment |
| Handlers.RedirectExamples | index.js:134-138 | `/redirect/ABC?x=1` leads to `http://e.com/p?x=1` from `http://e.com/p` and to `http://e.com/p?y=2&x=1` from `http://e.com/p?y=2` |
| Handlers.PasswordCheckedFirst | index.js:81-88 | with a wrong password the URL field, whatever it holds, makes no difference to the response or the database, on both endpoints |
| Handlers.ApiIgnoresFormField | index.js:78 | the API endpoint answers 400 to an authorized body that lacks `longURL`, whatever else it holds |
| Handlers.ShortenWellFormed | index.js:86-101 | both shorten endpoints keep the store well formed |
| Handlers.ShortenThenRedirect | index.js:92-141 | after a successful API shorten of a string URL, the returned code is the stored code, the short URL ends in it, and visiting its path passes exactly the submitted URL to `res.redirect` |
| Handlers.ShortenFormThenRedirect | index.js:170-189 | after a successful form shorten of a string URL, the code is stored, the linked short URL ends in it, and visiting its path passes exactly the submitted URL to `res.redirect` |
| Sessions.Serve | index.js:75-194 | its contract promises exactly one response per request; serving each request against the database the previous one left is its definition, not a promise of its contract, and the lemmas below state what that sequencing guarantees |
| Sessions.ServeNewCodesFromShortens | index.js:92-101 | every code the store gains during a run is the code of one of the run's shorten requests; redirects add nothing |
| Sessions.ServeOnlyAdds | index.js:75-194 | over any sequence of requests no mapping is changed or removed, reachability is untouched, and well-formedness is kept |
| Sessions.LookupStable | index.js:127-141 | a code that resolves now redirects to the same place after any further requests |
| Sessions.SucceededCodesFresh | schema/urlSchema.js:8 | the code of every successful shorten in a run was not stored when the run began |
| Sessions.SucceededCodesDistinct | schema/urlSchema.js:8 | no two successful shortens in a run hand out the same code |

## Left out

- Express setup and middleware: body parsing, morgan logging, static files with explicit MIME types, and the landing page at `/`. The handlers take the already-parsed body.
- Route dispatch and path-parameter decoding. The redirect handler takes the decoded `shortCode` parameter and `req.url` as two separate inputs. The model does not tie one to the other.
- Reading the environment (`PORT`, `REDIRECT_URL_PARAMS`, `SHORTEN_URL`, `API_PASSWORD` and their `||` defaults). The secret and the redirect prefix are fields of `Config`. The port and the shorten path only matter for routing.
- The MongoDB connection and driver. The database is a map plus an `online` flag. Any driver failure is modelled as unreachability, which surfaces as a 500 through the handlers' `catch`.
- nanoid's random source and its rejection sampling. The draw is a parameter: eight positions into the alphabet.
- Response details beyond status and payload: the exact HTML around the form's link and the `success: true` flag. The redirect is given Express's default status, 302.
- JSON numbers are the safe integers, at most 2^53 - 1 in magnitude. Larger numbers, which JavaScript rounds and prints in exponent form from 1e21 up (`"1e+21"`), fractions, `NaN` and `-0` are not modelled. Objects carrying a string `_id`, which Mongoose would cast, are treated like any other object.
- `createdAt` is an integer clock reading. Date casting of a supplied value is not modelled, and the handlers never supply one.
- A missing `Host` header (`req.get("host")` being `undefined`): the host is a string parameter.
- The redirect target is the argument passed to `res.redirect`. Express's percent-encoding of it into the `Location` header, and Express 4 treating the literal `"back"` as the Referer (or `/`), are not modelled.
- Sessions.LookupStable: reachability of the database is fixed for a whole run, since no modelled request changes the `online` flag. In the service an outage between requests makes a later lookup throw, and the redirect then answers 500 instead of the earlier 302. A single request against an unreachable database is modelled (`Handlers.Redirect` answers 500).
- Strings are sequences of Unicode scalar values. JavaScript strings holding unpaired UTF-16 surrogates (a JSON body can carry `"\ud800"`) cannot be represented. The database's UTF-8 encoding would replace such a surrogate with U+FFFD, and that is not modelled.
- Concurrency between requests, console logging, and the unused `uuid` import.
- Handlers.Redirect: its contract fixes the target only for requests without a query segment. The query cases are stated by `Handlers.RedirectWithQuery` and `Handlers.QuerySegmentPresent`.

=== FILE: handlers.dfy ===
/**
  The request handlers: the JSON shorten endpoint, the form shorten endpoint and
  the redirect endpoint, each a pure function from the request, the generated
  code and the database to the response and the database afterwards.
 */
module Handlers {
  import opened Wrappers
  import opened JsValues
  import opened Strings
  import opened IdGenerator
  import opened UrlSchema

  /** The settings the handlers read: the shared secret and the redirect path segment. */
  datatype Config = Config(apiPassword: string, redirectPrefix: string)

  /** The part of a response the model keeps. */
  datatype Payload =
    | Created(shortCode: string, shortenedUrl: string)   // JSON `{success: true, shortCode, shortenedUrl}`
    | Link(shortenedUrl: string)                         // the form's anchor to the short URL
    | Location(target: string)                           // the redirect target
    | JsonError(message: string)                         // JSON `{error: message}`
    | Text(message: string)                              // a plain-text error

  datatype Response = Response(status: nat, payload: Payload)

  /** A response together with the database after the request. */
  datatype Handled = Handled(response: Response, db: Db)

  /** A shorten request: the scheme and host it arrived on, and its parsed body. */
  datatype ShortenRequest = ShortenRequest(protocol: string, host: string, body: map<string, JsValue>)

  /** The body's `password` field is exactly the shared secret. */
  predicate Authorized(cfg: Config, body: map<string, JsValue>) {
    StrictEqualsString(Field(body, "password"), cfg.apiPassword)
  }

  /**
    Only the exact secret, sent as a string, authorizes: a missing password, a
    number, an array or any other string is refused.
   */
  lemma AuthorizedExactly(cfg: Config, body: map<string, JsValue>)
    ensures Authorized(cfg, body) <==> "password" in body && body["password"] == Str(cfg.apiPassword)
  {
  }

  /** The short URL handed back to the client: `protocol://host/prefix/code`. */
  function ShortUrl(protocol: string, host: string, prefix: string, code: string): string {
    protocol + "://" + host + "/" + prefix + "/" + code
  }

  /** The path at which the redirect endpoint serves `code`. */
  function RedirectPath(prefix: string, code: string): string {
    "/" + prefix + "/" + code
  }

  /** The short URL is the request origin followed by the redirect path, and its last segment is the code. */
  lemma ShortUrlShape(protocol: string, host: string, prefix: string, code: string)
    requires ValidCode(code)
    ensures ShortUrl(protocol, host, prefix, code) == protocol + "://" + host + RedirectPath(prefix, code)
    ensures LastSegment(ShortUrl(protocol, host, prefix, code)) == code
  {
    ValidCodeUrlSafe(code);
    LastSegmentAfterSlash(protocol + "://" + host + "/" + prefix, code);
  }

  /** The outcome the two shorten endpoints share; they differ only in how it is rendered. */
  datatype Decision =
    | Unauthorized
    | MissingUrl
    | SaveFailed(error: StoreError)
    | Saved(db: Db, shortenedUrl: string)

  /**
    The shorten algorithm: check the password, then the truthiness of the URL
    field, then save `{shortCode, originalUrl}` once with the generated code,
    then compose the short URL. Nothing is retried.
   */
  function Shorten(cfg: Config, req: ShortenRequest, urlField: string, code: string, now: int, db: Db): (d: Decision)
    requires ValidCode(code)
  {
    if !Authorized(cfg, req.body) then Unauthorized
    else if !Truthy(Field(req.body, urlField)) then MissingUrl
    else
      match Insert(db, Doc(Str(code), Field(req.body, urlField), None), now)
      case Err(e) => SaveFailed(e)
      case Ok(db') => Saved(db', ShortUrl(req.protocol, req.host, cfg.redirectPrefix, code))
  }

  /** The value the store keeps as `originalUrl` for an accepted URL field. */
  function StoredUrl(v: JsValue): string
    requires ScalarString(v).Some?
  {
    ScalarString(v).value
  }

  /** The conditions under which a shorten request with an authorized, truthy URL is saved. */
  predicate Saves(url: JsValue, code: string, db: Db) {
    db.online && code !in db.urls && ScalarString(url).Some?
  }

  /** The JSON shorten endpoint; the URL arrives in the field `longURL`. */
  function ShortenApi(cfg: Config, req: ShortenRequest, code: string, now: int, db: Db): (h: Handled)
    requires ValidCode(code)
    ensures h.response.status in {200, 400, 401, 500}
    ensures h.response.status == 401 <==> !Authorized(cfg, req.body)
    ensures h.response.status == 400 <==> Authorized(cfg, req.body) && !Truthy(Field(req.body, "longURL"))
    ensures h.response.status == 200 <==>
      Authorized(cfg, req.body) && Truthy(Field(req.body, "longURL")) && Saves(Field(req.body, "longURL"), code, db)
    ensures h.response.status != 200 ==> h.db == db
    ensures h.response.status == 200 ==>
      && h.response.payload == Created(code, ShortUrl(req.protocol, req.host, cfg.redirectPrefix, code))
      && code !in db.urls
      && h.db.online == db.online
      && h.db.urls.Keys == db.urls.Keys + {code}
      && h.db.urls[code] == Mapping(code, StoredUrl(Field(req.body, "longURL")), now)
      && (forall k :: k in db.urls ==> h.db.urls[k] == db.urls[k])
    ensures h.response.status == 401 ==> h.response.payload == JsonError("Unauthorized: Invalid password")
    ensures h.response.status == 400 ==> h.response.payload == JsonError("longURL parameter is required")
    ensures h.response.status == 500 ==> h.response.payload == JsonError("Internal server error")
  {
    match Shorten(cfg, req, "longURL", code, now, db)
    case Unauthorized => Handled(Response(401, JsonError("Unauthorized: Invalid password")), db)
    case MissingUrl => Handled(Response(400, JsonError("longURL parameter is required")), db)
    case SaveFailed(_) => Handled(Response(500, JsonError("Internal server error")), db)
    case Saved(db', url) => Handled(Response(200, Created(code, url)), db')
  }

  /** The form shorten endpoint; the URL arrives in the field `longUrl`. */
  function ShortenForm(cfg: Config, req: ShortenRequest, code: string, now: int, db: Db): (h: Handled)
    requires ValidCode(code)
    ensures h.response.status in {200, 400, 401, 500}
    ensures h.response.status == 401 <==> !Authorized(cfg, req.body)
    ensures h.response.status == 400 <==> Authorized(cfg, req.body) && !Truthy(Field(req.body, "longUrl"))
    ensures h.response.status == 200 <==>
      Authorized(cfg, req.body) && Truthy(Field(req.body, "longUrl")) && Saves(Field(req.body, "longUrl"), code, db)
    ensures h.response.status != 200 ==> h.db == db
    ensures h.response.status == 200 ==>
      && h.response.payload == Link(ShortUrl(req.protocol, req.host, cfg.redirectPrefix, code))
      && code !in db.urls
      && h.db.online == db.online
      && h.db.urls.Keys == db.urls.Keys + {code}
      && h.db.urls[code] == Mapping(code, StoredUrl(Field(req.body, "longUrl")), now)
      && (forall k :: k in db.urls ==> h.db.urls[k] == db.urls[k])
    ensures h.response.status == 401 ==> h.response.payload == Text("Unauthorized: Invalid password")
    ensures h.response.status == 400 ==> h.response.payload == Text("Original URL is required")
    ensures h.response.status == 500 ==> h.response.payload == Text("Error creating short URL")
  {
    match Shorten(cfg, req, "longUrl", code, now, db)
    case Unauthorized => Handled(Response(401, Text("Unauthorized: Invalid password")), db)
    case MissingUrl => Handled(Response(400, Text("Original URL is required")), db)
    case SaveFailed(_) => Handled(Response(500, Text("Error creating short URL")), db)
    case Saved(db', url) => Handled(Response(200, Link(url)), db')
  }

  /** `req.url.split("?")[1]`: the text between the first `?` and the next one, or `undefined`. */
  function QuerySegment(url: string): (r: Option<string>)
    ensures r.None? <==> '?' !in url
    ensures r.Some? ==> '?' !in r.value && |r.value| < |url|
  {
    var parts := Split(url, '?');
    JoinSplit(url, '?');
    if '?' !in url then SplitNoSeparator(url, '?'); None
    else
      assert |parts| >= 2;
      assert url == parts[0] + ['?'] + Join(parts[1..], '?');
      JoinFirst(parts[1..], '?');
      Some(parts[1])
  }

  /** The separator that continues `original`'s query, or starts one. */
  function QuerySeparator(original: string): char {
    if '?' in original then '&' else '?'
  }

  /** The stored URL with a truthy query segment appended; an empty or absent segment changes nothing. */
  function AppendQuery(original: string, segment: Option<string>): (r: string)
    ensures original <= r
    ensures r == original <==> segment.None? || segment.value == ""
    ensures r != original ==> '?' in r && r[|original|] == (if '?' in original then '&' else '?')
    ensures r != original ==> r[|original| + 1..] == segment.value
  {
    if segment.Some? && segment.value != "" then original + [QuerySeparator(original)] + segment.value
    else original
  }

  /** The redirect endpoint: `code` is the decoded path parameter and `url` the request's `req.url`. */
  function Redirect(code: string, url: string, db: Db): (h: Handled)
    ensures h.db == db
    ensures h.response.status in {302, 404, 500}
    ensures h.response.status == 500 <==> !db.online
    ensures h.response.status == 404 <==> db.online && code !in db.urls
    ensures h.response.status == 302 ==>
      && code in db.urls
      && h.response.payload.Location?
      && (QuerySegment(url).None? ==> h.response.payload.target == db.urls[code].originalUrl)
    ensures h.response.status == 404 ==> h.response.payload == JsonError("Shortened URL not found")
    ensures h.response.status == 500 ==> h.response.payload == JsonError("Internal server error")
  {
    match FindOne(db, code)
    case Err(_) => Handled(Response(500, JsonError("Internal server error")), db)
    case Ok(None) => Handled(Response(404, JsonError("Shortened URL not found")), db)
    case Ok(Some(doc)) => Handled(Response(302, Location(AppendQuery(doc.originalUrl, QuerySegment(url)))), db)
  }

  /**
    The query segment is the text after the first `?` up to the next `?`;
    whatever follows a second `?` is dropped.
   */
  lemma QuerySegmentPresent(path: string, q: string, rest: string)
    requires '?' !in path && '?' !in q
    ensures QuerySegment(path + "?" + q) == Some(q)
    ensures QuerySegment(path + "?" + q + "?" + rest) == Some(q)
  {
    SplitNoSeparator(path, '?');
    SplitNoSeparator(q, '?');
    SplitAround(path, q, '?');
    SplitAround(q, rest, '?');
    assert path + "?" + q + "?" + rest == path + ['?'] + (q + ['?'] + rest);
    SplitAround(path, q + ['?'] + rest, '?');
  }

  /** A redirect on a stored code whose request carries no query targets the stored URL as it is. */
  lemma RedirectWithoutQuery(code: string, url: string, db: Db)
    requires '?' !in url
    requires db.online && code in db.urls
    ensures Redirect(code, url, db).response == Response(302, Location(db.urls[code].originalUrl))
  {
  }

  /**
    A redirect on a stored code whose request URL is `path?q` (possibly followed
    by `?rest`) targets the stored URL with `q` appended after `&` when the stored
    URL already has a `?` and after `?` otherwise; an empty `q` appends nothing.
   */
  lemma RedirectWithQuery(code: string, path: string, q: string, rest: Option<string>, db: Db)
    requires '?' !in path && '?' !in q
    requires db.online && code in db.urls
    ensures
      var url := if rest.Some? then path + "?" + q + "?" + rest.value else path + "?" + q;
      var original := db.urls[code].originalUrl;
      Redirect(code, url, db).response == Response(302, Location(
        if q == "" then original
        else original + (if '?' in original then "&" else "?") + q))
  {
    QuerySegmentPresent(path, q, if rest.Some? then rest.value else "");
  }

  /** The query appended to a stored URL without one reads back as the request's query segment. */
  lemma AppendQueryRoundTrip(original: string, q: string)
    requires '?' !in original && '?' !in q && q != ""
    ensures QuerySegment(AppendQuery(original, Some(q))) == Some(q)
  {
    QuerySegmentPresent(original, q, "");
  }

  /**
    The worked examples: `/redirect/ABC?x=1` against a stored URL without and with a query.
    The request URL is a parameter pinned by `requires` so that `Split` is not unfolded on a literal.
   */
  lemma RedirectExamples(db: Db, url: string)
    requires db.online
    requires "ABC" in db.urls
    requires url == "/redirect/ABC?x=1"
    ensures db.urls["ABC"].originalUrl == "http://e.com/p" ==>
      Redirect("ABC", url, db).response.payload == Location("http://e.com/p?x=1")
    ensures db.urls["ABC"].originalUrl == "http://e.com/p?y=2" ==>
      Redirect("ABC", url, db).response.payload == Location("http://e.com/p?y=2&x=1")
  {
    var path, q := "/redirect/ABC", "x=1";
    assert '?' !in path by {
      forall i | 0 <= i < |path| ensures path[i] != '?' { }
    }
    assert path + "?" + q == url;
    QuerySegmentPresent(path, q, "");
    var original := db.urls["ABC"].originalUrl;
    if original == "http://e.com/p" {
      assert '?' !in original by {
        forall i | 0 <= i < |original| ensures original[i] != '?' { }
      }
      assert original + ['?'] + q == "http://e.com/p?x=1";
    } else if original == "http://e.com/p?y=2" {
      assert original[14] == '?';
      assert original + ['&'] + q == "http://e.com/p?y=2&x=1";
    }
  }

  /** A wrong password settles the request before the URL field is read: the URL field makes no difference. */
  lemma PasswordCheckedFirst(cfg: Config, req: ShortenRequest, v1: JsValue, v2: JsValue, code: string, now: int, db: Db)
    requires ValidCode(code)
    requires !Authorized(cfg, req.body)
    ensures
      var r1 := req.(body := req.body["longURL" := v1]);
      var r2 := req.(body := req.body["longURL" := v2]);
      ShortenApi(cfg, r1, code, now, db) == ShortenApi(cfg, r2, code, now, db)
    ensures
      var r1 := req.(body := req.body["longUrl" := v1]);
      var r2 := req.(body := req.body["longUrl" := v2]);
      ShortenForm(cfg, r1, code, now, db) == ShortenForm(cfg, r2, code, now, db)
  {
  }

  /** The API reads `longURL` only: a form-style body with just `longUrl` is a bad request there. */
  lemma ApiIgnoresFormField(cfg: Config, req: ShortenRequest, code: string, now: int, db: Db)
    requires ValidCode(code)
    requires Authorized(cfg, req.body)
    requires "longURL" !in req.body
    ensures ShortenApi(cfg, req, code, now, db).response.status == 400
  {
  }

  /** Each accepted URL field is stored non-empty, so a successful shorten keeps the store well formed. */
  lemma ShortenWellFormed(cfg: Config, req: ShortenRequest, code: string, now: int, db: Db)
    requires ValidCode(code)
    requires WellFormed(db.urls)
    ensures WellFormed(ShortenApi(cfg, req, code, now, db).db.urls)
    ensures WellFormed(ShortenForm(cfg, req, code, now, db).db.urls)
  {
  }

  /**
    Shortening and then visiting the short URL's path leads back to the URL that
    was submitted, unchanged.
   */
  lemma ShortenThenRedirect(cfg: Config, req: ShortenRequest, longUrl: string, code: string, now: int, db: Db)
    requires ValidCode(code)
    requires '?' !in cfg.redirectPrefix
    requires Field(req.body, "longURL") == Str(longUrl)
    requires ShortenApi(cfg, req, code, now, db).response.status == 200
    ensures
      var h := ShortenApi(cfg, req, code, now, db);
      && h.response.payload.shortCode == code
      && LastSegment(h.response.payload.shortenedUrl) == code
      && Redirect(code, RedirectPath(cfg.redirectPrefix, code), h.db).response
         == Response(302, Location(longUrl))
  {
    ValidCodeUrlSafe(code);
    ShortUrlShape(req.protocol, req.host, cfg.redirectPrefix, code);
    var h := ShortenApi(cfg, req, code, now, db);
    RedirectWithoutQuery(code, RedirectPath(cfg.redirectPrefix, code), h.db);
  }

  /** The same round trip through the form endpoint, which reads `longUrl` and answers with the link. */
  lemma ShortenFormThenRedirect(cfg: Config, req: ShortenRequest, longUrl: string, code: string, now: int, db: Db)
    requires ValidCode(code)
    requires '?' !in cfg.redirectPrefix
    requires Field(req.body, "longUrl") == Str(longUrl)
    requires ShortenForm(cfg, req, code, now, db).response.status == 200
    ensures
      var h := ShortenForm(cfg, req, code, now, db);
      && code in h.db.urls
      && LastSegment(h.response.payload.shortenedUrl) == code
      && Redirect(code, RedirectPath(cfg.redirectPrefix, code), h.db).response
         == Response(302, Location(longUrl))
  {
    ValidCodeUrlSafe(code);
    ShortUrlShape(req.protocol, req.host, cfg.redirectPrefix, code);
    var h := ShortenForm(cfg, req, code, now, db);
    RedirectWithoutQuery(code, RedirectPath(cfg.redirectPrefix, code), h.db);
  }
}

=== FILE: id_generator.dfy ===
/**
  The short-code generator: eight symbols drawn from a fixed alphabet of digits
  and lower-case letters. The random draw itself is a parameter.
 */
module IdGenerator {

  /** The generator's alphabet, digits first, then lower-case letters. */
  const Alphabet: string := "0123456789abcdefghijklmnopqrstuvwxyz"

  /** The length of every generated code. */
  const CodeLength: nat := 8

  predicate IsDigit(c: char) { '0' <= c <= '9' }
  predicate IsLower(c: char) { 'a' <= c <= 'z' }
  predicate IsUpper(c: char) { 'A' <= c <= 'Z' }

  /** A string the generator can produce. */
  predicate ValidCode(s: string) {
    |s| == CodeLength && forall i :: 0 <= i < |s| ==> s[i] in Alphabet
  }

  /** A draw for one code: one alphabet position per symbol. */
  predicate ValidDraw(picks: seq<nat>) {
    |picks| == CodeLength && forall i :: 0 <= i < |picks| ==> picks[i] < |Alphabet|
  }

  /** The symbol at alphabet position `i`, by arithmetic on character codes. */
  function Symbol(i: nat): char
    requires i < 36
  {
    if i < 10 then (48 + i) as char else (87 + i) as char
  }

  /** The alphabet position of a digit or lower-case letter. */
  function SymbolIndex(c: char): (i: nat)
    requires IsDigit(c) || IsLower(c)
    ensures i < 36 && Symbol(i) == c
  {
    if IsDigit(c) then c as int - 48 else c as int - 87
  }

  lemma AlphabetIsSymbols()
    ensures |Alphabet| == 36
    ensures forall i :: 0 <= i < 36 ==> Alphabet[i] == Symbol(i)
  {
  }

  /**
    The alphabet has 36 distinct symbols, exactly the digits and the lower-case
    letters; in particular it has no upper-case letter.
   */
  lemma AlphabetFacts()
    ensures |Alphabet| == 36
    ensures forall i, j :: 0 <= i < j < |Alphabet| ==> Alphabet[i] != Alphabet[j]
    ensures forall c :: c in Alphabet <==> IsDigit(c) || IsLower(c)
    ensures forall c :: c in Alphabet ==> !IsUpper(c)
  {
    AlphabetIsSymbols();
    forall i, j | 0 <= i < j < 36
      ensures Alphabet[i] != Alphabet[j]
    {
      assert Alphabet[i] == Symbol(i) && Alphabet[j] == Symbol(j);
    }
    forall c | c in Alphabet
      ensures IsDigit(c) || IsLower(c)
    {
      var i :| 0 <= i < 36 && Alphabet[i] == c;
      assert c == Symbol(i);
    }
    forall c | IsDigit(c) || IsLower(c)
      ensures c in Alphabet
    {
      assert Alphabet[SymbolIndex(c)] == c;
    }
  }

  /** A code consists of digits and lower-case letters only. */
  lemma ValidCodeChars(s: string)
    requires ValidCode(s)
    ensures forall i :: 0 <= i < |s| ==> IsDigit(s[i]) || IsLower(s[i])
  {
  }

  /**
    A code contains none of the characters that delimit URL paths and queries,
    so it can stand as a path segment unescaped.
   */
  lemma ValidCodeUrlSafe(s: string)
    requires ValidCode(s)
    ensures '/' !in s && '?' !in s && '&' !in s && '#' !in s && '%' !in s
  {
    ValidCodeChars(s);
  }

  /** `generateSafeId()`: the code spelled by a draw of eight alphabet positions. */
  function GenerateSafeId(picks: seq<nat>): (code: string)
    requires ValidDraw(picks)
    ensures ValidCode(code)
  {
    seq(CodeLength, i requires 0 <= i < CodeLength => Alphabet[picks[i]])
  }

  /** `generateOrderId()`: a plain delegation to `generateSafeId()`. */
  function GenerateOrderId(picks: seq<nat>): (code: string)
    requires ValidDraw(picks)
    ensures ValidCode(code)
    ensures code == GenerateSafeId(picks)
  {
    GenerateSafeId(picks)
  }

  /** The draw that spells a valid code. */
  function DrawOf(code: string): (picks: seq<nat>)
    requires ValidCode(code)
    ensures ValidDraw(picks)
  {
    ValidCodeChars(code);
    seq(CodeLength, i requires 0 <= i < CodeLength => SymbolIndex(code[i]))
  }

  /** Every valid code is generated by exactly one draw. */
  lemma GenerateSafeIdBijective(code: string, picks: seq<nat>)
    requires ValidCode(code)
    requires ValidDraw(picks)
    ensures GenerateSafeId(DrawOf(code)) == code
    ensures DrawOf(GenerateSafeId(picks)) == picks
  {
    AlphabetFacts();
    AlphabetIsSymbols();
    ValidCodeChars(code);
    var c := GenerateSafeId(picks);
    ValidCodeChars(c);
    forall i | 0 <= i < CodeLength
      ensures DrawOf(c)[i] == picks[i]
    {
      assert Symbol(DrawOf(c)[i]) == c[i] == Symbol(picks[i]);
    }
  }
}

=== FILE: js_values.dfy ===
/**
  The values a parsed request body can hold, and the two JavaScript conversions
  the handlers rely on: truthiness (the `!x` test) and `String(x)`.
 */
module JsValues {
  import opened Wrappers

  /**
    A field of `req.body`. `Obj` stands for arrays and plain objects, which a JSON
    body can carry and which a form body produces for a repeated key.
    JSON numbers are the safe integers, the range in which a double holds every
    integer exactly and `String(n)` writes out all of its digits.
   */
  datatype JsValue =
    | Undefined
    | Null
    | Bool(b: bool)
    | Num(n: SafeInt)
    | Str(s: string)
    | Obj

  /** `Number.MAX_SAFE_INTEGER`, 2^53 - 1. */
  const MaxSafeInteger: int := 0x1F_FFFF_FFFF_FFFF

  type SafeInt = n: int | -MaxSafeInteger <= n <= MaxSafeInteger

  /** The field `name` of a parsed body; destructuring a missing key yields `undefined`. */
  function Field(body: map<string, JsValue>, name: string): JsValue {
    if name in body then body[name] else Undefined
  }

  /** JavaScript truthiness: `!v` is false exactly for these values. */
  predicate Truthy(v: JsValue) {
    match v
    case Undefined => false
    case Null => false
    case Bool(b) => b
    case Num(n) => n != 0
    case Str(s) => s != ""
    case Obj => true
  }

  /** The falsy values are exactly `undefined`, `null`, `false`, `0` and the empty string. */
  lemma FalsyValues(v: JsValue)
    ensures !Truthy(v) <==> v in {Undefined, Null, Bool(false), Num(0), Str("")}
  {
  }

  /** `v === s` for a string `s`: strict equality never converts, so only a string can match. */
  predicate StrictEqualsString(v: JsValue, s: string) {
    v == Str(s)
  }

  /** Decimal digits of a natural number, most significant first. */
  function DecimalDigits(n: nat): (s: string)
    ensures |s| >= 1
    ensures AllDigits(s)
    decreases n
  {
    if n < 10 then [(48 + n) as char] else DecimalDigits(n / 10) + [(48 + n % 10) as char]
  }

  predicate AllDigits(s: string) {
    forall i :: 0 <= i < |s| ==> '0' <= s[i] <= '9'
  }

  /** The number a string of decimal digits denotes; the inverse of `DecimalDigits`. */
  function DecimalValue(s: string): nat
    requires AllDigits(s)
  {
    if |s| == 0 then 0 else DecimalValue(s[..|s| - 1]) * 10 + (s[|s| - 1] as int - 48)
  }

  /** Reading back the digits of `n` gives `n`. */
  lemma {:induction false} DecimalRoundTrip(n: nat)
    ensures DecimalValue(DecimalDigits(n)) == n
    decreases n
  {
    if n >= 10 {
      DecimalRoundTrip(n / 10);
      var s := DecimalDigits(n);
      assert s[..|s| - 1] == DecimalDigits(n / 10);
    }
  }

  /** The digits of a positive number never start with `0`. */
  lemma {:induction false} NoLeadingZero(n: nat)
    ensures n == 0 || DecimalDigits(n)[0] != '0'
    decreases n
  {
    if n >= 10 {
      NoLeadingZero(n / 10);
    }
  }

  /** `String(n)` for a safe integer `n`: a minus sign for negatives, then its decimal digits. */
  function NumberString(n: SafeInt): (s: string)
    ensures |s| >= 1
    ensures n >= 0 ==> AllDigits(s) && DecimalValue(s) == n
    ensures n < 0 ==> s[0] == '-' && AllDigits(s[1..]) && DecimalValue(s[1..]) == -n
    ensures n >= 0 ==> |s| == 1 || s[0] != '0'
    ensures n < 0 ==> |s| == 2 || s[1] != '0'
  {
    if n < 0 then
      NoLeadingZero(-n);
      DecimalRoundTrip(-n);
      assert ("-" + DecimalDigits(-n))[1..] == DecimalDigits(-n);
      "-" + DecimalDigits(-n)
    else
      NoLeadingZero(n);
      DecimalRoundTrip(n);
      DecimalDigits(n)
  }

  /** `String(v)` for the scalar values; arrays, objects, `null` and `undefined` have none here. */
  function ScalarString(v: JsValue): (r: Option<string>)
    ensures r.Some? <==> (v.Str? || v.Num? || v.Bool?)
    ensures v.Str? ==> r == Some(v.s)
    ensures v.Num? && v.n >= 0 ==>
      |r.value| >= 1 && AllDigits(r.value) && DecimalValue(r.value) == v.n && (|r.value| == 1 || r.value[0] != '0')
    ensures v.Num? && v.n < 0 ==>
      |r.value| >= 2 && r.value[0] == '-' && AllDigits(r.value[1..]) && DecimalValue(r.value[1..]) == -v.n
      && (|r.value| == 2 || r.value[1] != '0')
    ensures v.Bool? ==> r == Some(if v.b then "true" else "false")
  {
    match v
    case Str(s) => Some(s)
    case Num(n) => Some(NumberString(n))
    case Bool(b) => Some(if b then "true" else "false")
    case _ => None
  }

  /** A truthy scalar never converts to the empty string. */
  lemma TruthyScalarNonEmpty(v: JsValue)
    requires Truthy(v)
    requires ScalarString(v).Some?
    ensures ScalarString(v).value != ""
  {
  }
}

=== FILE: sessions.dfy ===
/**
  The service over time: a sequence of requests served one after another
  against the same database. Mappings are only ever added, never changed or
  removed, and no two successful shortens hand out the same code.
 */
module Sessions {
  import opened UrlSchema
  import opened IdGenerator
  import opened Handlers

  /** One incoming request, with the code the generator drew and the clock reading for shortens. */
  datatype Request =
    | ApiShorten(req: ShortenRequest, code: string, now: int)
    | FormShorten(req: ShortenRequest, code: string, now: int)
    | Visit(code: string, url: string)

  /** Shorten requests carry a code the generator can produce. */
  predicate Generated(r: Request) {
    r.Visit? || ValidCode(r.code)
  }

  predicate AllGenerated(rs: seq<Request>) {
    forall i :: 0 <= i < |rs| ==> Generated(rs[i])
  }

  /** The handler the request is routed to. */
  function Step(cfg: Config, db: Db, r: Request): Handled
    requires Generated(r)
  {
    match r
    case ApiShorten(req, code, now) => ShortenApi(cfg, req, code, now, db)
    case FormShorten(req, code, now) => ShortenForm(cfg, req, code, now, db)
    case Visit(code, url) => Redirect(code, url, db)
  }

  /** The responses to a sequence of requests, and the database after the last one. */
  datatype Trace = Trace(responses: seq<Response>, final: Db)

  function Serve(cfg: Config, db: Db, rs: seq<Request>): (t: Trace)
    requires AllGenerated(rs)
    ensures |t.responses| == |rs|
    decreases |rs|
  {
    if |rs| == 0 then Trace([], db)
    else
      var h := Step(cfg, db, rs[0]);
      var t := Serve(cfg, h.db, rs[1..]);
      Trace([h.response] + t.responses, t.final)
  }

  /** A shorten request that was answered with success. */
  predicate Succeeded(r: Request, resp: Response) {
    !r.Visit? && resp.status == 200
  }

  /**
    Serving requests only adds mappings: every stored mapping survives unchanged,
    reachability is untouched, and a well-formed store stays well formed.
   */
  lemma {:induction false} ServeOnlyAdds(cfg: Config, db: Db, rs: seq<Request>)
    requires AllGenerated(rs)
    ensures Serve(cfg, db, rs).final.online == db.online
    ensures forall k :: k in db.urls ==> k in Serve(cfg, db, rs).final.urls && Serve(cfg, db, rs).final.urls[k] == db.urls[k]
    ensures WellFormed(db.urls) ==> WellFormed(Serve(cfg, db, rs).final.urls)
    decreases |rs|
  {
    if |rs| > 0 {
      var h := Step(cfg, db, rs[0]);
      ServeOnlyAdds(cfg, h.db, rs[1..]);
      if WellFormed(db.urls) && !rs[0].Visit? {
        ShortenWellFormed(cfg, rs[0].req, rs[0].code, rs[0].now, db);
      }
    }
  }

  /** Every code the store gains during a run is the code of one of the run's shorten requests. */
  lemma {:induction false} ServeNewCodesFromShortens(cfg: Config, db: Db, rs: seq<Request>)
    requires AllGenerated(rs)
    ensures forall k :: k in Serve(cfg, db, rs).final.urls && k !in db.urls ==>
      exists i :: 0 <= i < |rs| && !rs[i].Visit? && rs[i].code == k
    decreases |rs|
  {
    if |rs| > 0 {
      var h := Step(cfg, db, rs[0]);
      ServeNewCodesFromShortens(cfg, h.db, rs[1..]);
      forall k | k in Serve(cfg, db, rs).final.urls && k !in db.urls
        ensures exists i :: 0 <= i < |rs| && !rs[i].Visit? && rs[i].code == k
      {
        if k in h.db.urls {
          assert !rs[0].Visit? && rs[0].code == k;
        } else {
          var j :| 0 <= j < |rs[1..]| && !rs[1..][j].Visit? && rs[1..][j].code == k;
          assert rs[j + 1] == rs[1..][j];
        }
      }
    }
  }

  /** A code that resolves now resolves to the same place after any further requests. */
  lemma LookupStable(cfg: Config, db: Db, rs: seq<Request>, code: string, url: string)
    requires AllGenerated(rs)
    requires code in db.urls
    ensures Redirect(code, url, Serve(cfg, db, rs).final).response == Redirect(code, url, db).response
  {
    ServeOnlyAdds(cfg, db, rs);
  }

  /** The code of every successful shorten was not yet stored when the run began. */
  lemma {:induction false} SucceededCodesFresh(cfg: Config, db: Db, rs: seq<Request>)
    requires AllGenerated(rs)
    ensures forall j :: 0 <= j < |rs| && Succeeded(rs[j], Serve(cfg, db, rs).responses[j]) ==> rs[j].code !in db.urls
    decreases |rs|
  {
    if |rs| > 0 {
      var h := Step(cfg, db, rs[0]);
      var t := Serve(cfg, h.db, rs[1..]);
      SucceededCodesFresh(cfg, h.db, rs[1..]);
      ServeOnlyAdds(cfg, db, [rs[0]]);
      assert Serve(cfg, db, [rs[0]]).final == h.db by {
        assert [rs[0]][1..] == [];
      }
      forall j | 1 <= j < |rs| && Succeeded(rs[j], Serve(cfg, db, rs).responses[j])
        ensures rs[j].code !in db.urls
      {
        assert rs[1..][j - 1] == rs[j];
        assert t.responses[j - 1] == Serve(cfg, db, rs).responses[j];
      }
    }
  }

  /** No two successful shortens in a run hand out the same code. */
  lemma {:induction false} SucceededCodesDistinct(cfg: Config, db: Db, rs: seq<Request>)
    requires AllGenerated(rs)
    ensures forall i, j ::
      0 <= i < j < |rs| &&
      Succeeded(rs[i], Serve(cfg, db, rs).responses[i]) &&
      Succeeded(rs[j], Serve(cfg, db, rs).responses[j])
      ==> rs[i].code != rs[j].code
    decreases |rs|
  {
    if |rs| > 0 {
      var h := Step(cfg, db, rs[0]);
      var t := Serve(cfg, h.db, rs[1..]);
      var all := Serve(cfg, db, rs).responses;
      SucceededCodesDistinct(cfg, h.db, rs[1..]);
      SucceededCodesFresh(cfg, h.db, rs[1..]);
      forall i, j | 0 <= i < j < |rs| && Succeeded(rs[i], all[i]) && Succeeded(rs[j], all[j])
        ensures rs[i].code != rs[j].code
      {
        assert rs[1..][j - 1] == rs[j];
        assert t.responses[j - 1] == all[j];
        if i == 0 {
          assert rs[0].code in h.db.urls;
        } else {
          assert rs[1..][i - 1] == rs[i];
          assert t.responses[i - 1] == all[i];
        }
      }
    }
  }
}

=== FILE: strings.dfy ===
/**
  `String.prototype.split` with a one-character separator, its inverse `Join`,
  and the facts about them that the handlers' string handling rests on.
 */
module Strings {

  /**
    The pieces of `s` between occurrences of `sep`, in order. As in JavaScript,
    there is always at least one piece, and a separator at either end yields an
    empty piece there.
   */
  function Split(s: string, sep: char): (parts: seq<string>)
    ensures |parts| >= 1
    ensures forall i :: 0 <= i < |parts| ==> sep !in parts[i]
    decreases |s|
  {
    if |s| == 0 then [""]
    else if s[0] == sep then [""] + Split(s[1..], sep)
    else
      var rest := Split(s[1..], sep);
      [[s[0]] + rest[0]] + rest[1..]
  }

  /** The pieces glued back together with `sep` between neighbours. */
  function Join(parts: seq<string>, sep: char): string
    requires |parts| >= 1
    decreases |parts|
  {
    if |parts| == 1 then parts[0] else parts[0] + [sep] + Join(parts[1..], sep)
  }

  /** Splitting loses nothing: joining the pieces restores the string. */
  lemma {:induction false} JoinSplit(s: string, sep: char)
    ensures Join(Split(s, sep), sep) == s
    decreases |s|
  {
    if |s| == 0 {
    } else if s[0] == sep {
      var rest := Split(s[1..], sep);
      JoinSplit(s[1..], sep);
      assert ([""] + rest)[1..] == rest;
      assert s == [sep] + s[1..];
    } else {
      var rest := Split(s[1..], sep);
      JoinSplit(s[1..], sep);
      var parts := [[s[0]] + rest[0]] + rest[1..];
      if |rest| == 1 {
        assert s == [s[0]] + s[1..];
      } else {
        assert parts[1..] == rest[1..];
        assert Join(rest, sep) == rest[0] + [sep] + Join(rest[1..], sep);
        assert s == [s[0]] + s[1..];
      }
    }
  }

  /** The first piece is a prefix of the joined string. */
  lemma JoinFirst(parts: seq<string>, sep: char)
    requires |parts| >= 1
    ensures parts[0] <= Join(parts, sep)
  {
  }

  /** A string without the separator is a single piece. */
  lemma {:induction false} SplitNoSeparator(s: string, sep: char)
    requires sep !in s
    ensures Split(s, sep) == [s]
    decreases |s|
  {
    if |s| > 0 {
      assert sep !in s[1..];
      SplitNoSeparator(s[1..], sep);
      assert s == [s[0]] + s[1..];
    }
  }

  /** A separator between `a` and `b` divides the pieces of `a` from those of `b`. */
  lemma {:induction false} SplitAround(a: string, b: string, sep: char)
    ensures Split(a + [sep] + b, sep) == Split(a, sep) + Split(b, sep)
    decreases |a|
  {
    var s := a + [sep] + b;
    if |a| == 0 {
      assert s[0] == sep && s[1..] == b;
    } else {
      assert s[0] == a[0];
      assert s[1..] == a[1..] + [sep] + b;
      SplitAround(a[1..], b, sep);
    }
  }

  /** Splitting undoes joining when no piece contains the separator. */
  lemma {:induction false} SplitJoin(parts: seq<string>, sep: char)
    requires |parts| >= 1
    requires forall i :: 0 <= i < |parts| ==> sep !in parts[i]
    ensures Split(Join(parts, sep), sep) == parts
    decreases |parts|
  {
    SplitNoSeparator(parts[0], sep);
    if |parts| > 1 {
      SplitJoin(parts[1..], sep);
      SplitAround(parts[0], Join(parts[1..], sep), sep);
      assert parts == [parts[0]] + parts[1..];
    }
  }

  /** The last piece of `s` split at `/`: the final segment of a path or URL. */
  function LastSegment(s: string): string {
    var parts := Split(s, '/');
    parts[|parts| - 1]
  }

  /** The final segment after a `/` is whatever follows the last `/`. */
  lemma LastSegmentAfterSlash(a: string, b: string)
    requires '/' !in b
    ensures LastSegment(a + "/" + b) == b
  {
    SplitAround(a, b, '/');
    SplitNoSeparator(b, '/');
  }
}

=== FILE: url_schema.dfy ===
/**
  The persisted mapping and the store behind it. The store is keyed by short
  code, which is how the schema's unique index on `shortCode` is represented;
  `online` says whether the database can be reached.
 */
module UrlSchema {
  import opened Wrappers
  import opened JsValues

  /** One persisted document: `{shortCode, originalUrl, createdAt}`. */
  datatype Mapping = Mapping(shortCode: string, originalUrl: string, createdAt: int)

  /** Every stored document, by its short code. */
  type Store = map<string, Mapping>

  datatype Db = Db(online: bool, urls: Store)

  /** A document as handed to the model constructor, before casting and validation. */
  datatype Doc = Doc(shortCode: JsValue, originalUrl: JsValue, createdAt: Option<int>)

  datatype StoreError =
    | Required(path: string)      // a required path is missing or empty
    | CastFailed(path: string)    // the value cannot be turned into a string
    | Unavailable                 // the database cannot be reached
    | DuplicateKey                // the unique index on shortCode already holds the code

  /** The store's standing invariant: each document sits under its own code and has both required fields. */
  ghost predicate WellFormed(urls: Store) {
    forall k :: k in urls ==> urls[k].shortCode == k && k != "" && urls[k].originalUrl != ""
  }

  /**
    A required string path: `null` and `undefined` are missing, arrays and objects
    do not cast, and a value that casts to the empty string also fails the check.
   */
  function RequiredString(v: JsValue, path: string): (r: Result<string, StoreError>)
    ensures r.Ok? <==> ScalarString(v).Some? && ScalarString(v).value != ""
    ensures r.Ok? ==> r.value == ScalarString(v).value
    ensures r == Err(CastFailed(path)) <==> v == Obj
    ensures r.Err? && v != Obj ==> r == Err(Required(path))
  {
    match v
    case Undefined => Err(Required(path))
    case Null => Err(Required(path))
    case Obj => Err(CastFailed(path))
    case _ =>
      var s := ScalarString(v).value;
      if s == "" then Err(Required(path)) else Ok(s)
  }

  /**
    `new UrlModel(doc).save()`: validate, then write. Validation failures are
    reported before the database is contacted; an unreachable database fails
    next; last, the unique index refuses a code that is already stored.
    `now` is the clock reading that `createdAt` defaults to.
   */
  function Insert(db: Db, doc: Doc, now: int): (r: Result<Db, StoreError>)
    ensures r.Ok? <==>
      && RequiredString(doc.shortCode, "shortCode").Ok?
      && RequiredString(doc.originalUrl, "originalUrl").Ok?
      && db.online
      && RequiredString(doc.shortCode, "shortCode").value !in db.urls
    ensures r.Ok? ==>
      var code := RequiredString(doc.shortCode, "shortCode").value;
      var m := Mapping(code, RequiredString(doc.originalUrl, "originalUrl").value,
                       if doc.createdAt.Some? then doc.createdAt.value else now);
      && r.value.online == db.online
      && r.value.urls.Keys == db.urls.Keys + {code}
      && r.value.urls[code] == m
      && (forall k :: k in db.urls ==> r.value.urls[k] == db.urls[k])
    ensures RequiredString(doc.shortCode, "shortCode").Err? ==>
      r == Err(RequiredString(doc.shortCode, "shortCode").error)
    ensures RequiredString(doc.shortCode, "shortCode").Ok? && RequiredString(doc.originalUrl, "originalUrl").Err? ==>
      r == Err(RequiredString(doc.originalUrl, "originalUrl").error)
    ensures RequiredString(doc.shortCode, "shortCode").Ok? && RequiredString(doc.originalUrl, "originalUrl").Ok? ==>
      && (r == Err(Unavailable) <==> !db.online)
      && (r == Err(DuplicateKey) <==> db.online && RequiredString(doc.shortCode, "shortCode").value in db.urls)
  {
    match RequiredString(doc.shortCode, "shortCode")
    case Err(e) => Err(e)
    case Ok(code) =>
      match RequiredString(doc.originalUrl, "originalUrl")
      case Err(e) => Err(e)
      case Ok(url) =>
        if !db.online then Err(Unavailable)
        else if code in db.urls then Err(DuplicateKey)
        else
          var createdAt := if doc.createdAt.Some? then doc.createdAt.value else now;
          Ok(Db(db.online, db.urls[code := Mapping(code, url, createdAt)]))
  }

  /** Inserting keeps the store well formed. */
  lemma InsertWellFormed(db: Db, doc: Doc, now: int)
    requires WellFormed(db.urls)
    requires Insert(db, doc, now).Ok?
    ensures WellFormed(Insert(db, doc, now).value.urls)
  {
  }

  /** `UrlModel.findOne({shortCode: code})`. */
  function FindOne(db: Db, code: string): (r: Result<Option<Mapping>, StoreError>)
    ensures !db.online <==> r == Err(Unavailable)
    ensures r.Ok? ==> (r.value.Some? <==> code in db.urls)
  {
    if !db.online then Err(Unavailable)
    else if code in db.urls then Ok(Some(db.urls[code]))
    else Ok(None)
  }

  /**
    In a well-formed store no two documents share a short code, and a lookup
    returns the one document with the code asked for, if there is one.
   */
  lemma FindOneUnique(db: Db, code: string)
    requires db.online && WellFormed(db.urls)
    ensures forall m1, m2 :: m1 in db.urls.Values && m2 in db.urls.Values && m1.shortCode == m2.shortCode ==> m1 == m2
    ensures forall m :: m in db.urls.Values && m.shortCode == code ==> FindOne(db, code) == Ok(Some(m))
    ensures FindOne(db, code) == Ok(None) <==> forall m :: m in db.urls.Values ==> m.shortCode != code
  {
  }
}

=== FILE: wrappers.dfy ===
/** Option and Result, shared by the store and the handlers. */
module Wrappers {

  /** A value that may be absent, as a JavaScript `undefined`. */
  datatype Option<+T> = None | Some(value: T)

  /** The outcome of an operation that can fail with an error of type `E`. */
  datatype Result<+T, +E> = Ok(value: T) | Err(error: E)
}
